=== FILE: README.md ===
# Peach Blossom Paper: entry store and validation logic in Dafny

This project models the Rust backend of the Peach Blossom Paper journal, a
Tauri application that keeps "memory" entries in a local JSON file,
optionally encrypted with AES-256-GCM under an Argon2-derived key. The
model covers four parts of the backend:

- `models.dfy` (module `Models`): the records from `models.rs`. These are the
  memory entry with its constructor and partial `update`, the emotion-tag
  list operations, the metadata and search-filter records, and the
  `ApiResponse` builders.
- `crypto.dfy` (module `Crypto`): the parameter checks of `encrypt` and
  `decrypt`, key truncation in `derive_key`, the password strength score,
  password generation and the integrity check from `crypto.rs`.
- `storage.dfy` (module `Storage`): the storage manager's collection logic
  from `storage.rs`. The entries file is an abstract state `Missing | Blank
  | Plain(entries) | Encrypted(envelope) | Unparsable`, and the loaders
  dispatch on it. The module also has upsert-by-id, delete-by-id, lookup,
  filtered search and the random pick.
- `commands.dfy` (module `Commands`): the command layer of `commands.rs`.
  This is the total memory-type parse, tag-name parsing, metadata derived at
  creation, and how update and delete outcomes become errors or responses.

`wrappers.dfy` (Rust-like `Option`/`Result`) and `seqs.dfy` (an
order-preserving `retain` filter and its lemmas) are shared helpers.

Time, ids and randomness are parameters:

- the clock (`Utc::now`) is a `now` argument;
- the UUID of a new entry is an `id` argument;
- the salt and nonce an encryption draws are arguments;
- the random pick of `get_random_entry` is a nondeterministic choice.

The following are collaborators passed in as functions:

- Argon2, AES-256-GCM sealing and opening;
- base64, UTF-8 decoding and SHA-256;
- JSON (de)serialisation of an entry list.

Two Unicode details:

- `str::len` counts UTF-8 bytes. The model computes it from the code point
  of each character.
- `is_alphanumeric` is Unicode-aware. The scorer takes the classifier as a
  parameter. The concrete scores need only that it agrees with the ASCII
  letters-and-digits test on ASCII characters.

Facts about the code that a reader might not expect:

- `get_random_entry` keeps no history of earlier picks. Every call picks
  from the whole collection.
- Deleting an id that is not stored does not fail. `delete_memory_entry`
  returns a response with `success = false` and the "not found" text.
- `create_memory_entry` creates every entry with `is_encrypted == false`.
  This holds even when a password is supplied and the whole file is
  encrypted.
- The unit test at `src-tauri/src/crypto.rs:319` expects `"weak"` to score
  25. The code gives 10 (four bytes earn no length bonus; only the
  lowercase bonus applies), and `Crypto.WeakScoresTen` proves 10.

Three behaviours of the code are proved as stated, though they are
surprising:

- `save_entry` reads the file with the password-less loader and treats a
  failed load as an empty list. Saving into an encrypted (or unparsable)
  file therefore writes that one entry alone, and every earlier entry is
  dropped (`Storage.SaveEntryOverUnreadableFile`). This holds with or
  without a password. In particular, creating an entry with the password
  of an encrypted file re-encrypts only the new entry, and reading the file
  back with that password gives just that entry
  (`Storage.SealedSaveOverEncryptedKeepsOnlyEntry`). Updating never gets
  that far on such a file: `update_memory_entry` first looks the entry up
  with the password-less loader, so on an encrypted or unparsable file it
  always fails with the lookup error and writes nothing
  (`Commands.UpdateOnUnreadableFileFails`).
- `delete_entry` does the same, so on an encrypted file it always reports
  "not found".
- `load_entries_with_password` refuses a plain file. Asking for the entries
  with a password fails for a plain or unparsable file; a missing or blank
  file gives the empty list (`Commands.GetAllMemoryEntries`).

## Model

| member | source | states |
|---|---|---|
| Models.WordCount | src-tauri/src/models.rs:186 | the recorded count is the content's character count whenever that fits in 32 bits, and is below 2^32 always (the `as u32` cast) |
| Models.ReadingTime | src-tauri/src/models.rs:187 | the reading time is at least one minute, exactly one below 400 characters, and otherwise the whole number of 200-character minutes in the count |
| Models.AddTag | src-tauri/src/models.rs:194-198 | the tag is present afterwards, the members are the old ones plus the tag, the old list is an unchanged prefix, the length grows by one exactly when the tag was absent, and "no duplicates" is preserved |
| Models.RemoveTag | src-tauri/src/models.rs:201-203 | the tag no longer occurs, every other tag is kept, removing an absent tag changes nothing, and "no duplicates" is preserved |
| Models.RemoveTagKeepsOrder | src-tauri/src/models.rs:201-203 | removal distributes over concatenation, so surviving tags keep their relative order |
| Models.AddTagIdempotent | src-tauri/src/models.rs:194-198 | adding the same tag twice equals adding it once |
| Models.AddThenRemoveRestores | src-tauri/src/models.rs:194-203 | adding an absent tag and then removing it gives back the original list |
| Models.MemoryEntry.New | src-tauri/src/models.rs:161-175 | a new entry has the given fields, equal creation and update times, no tags, no attachments, no metadata, is not encrypted, and satisfies the entry invariant |
| Models.MemoryEntry.Update | src-tauri/src/models.rs:178-191 | id, creation time, type, tags, encryption flag and attachments are untouched; the update time is `now`; title and content follow the options; metadata stays absent if absent; new content refreshes exactly the two counts; the entry invariant is kept when time moves forward |
| Models.UpdateNothingTouchesOnlyTime | src-tauri/src/models.rs:178-191 | an update with neither title nor content changes only the update time |
| Models.MemoryEntry.AddEmotionTag | src-tauri/src/models.rs:194-198 | only the tag list of the entry changes, and the entry invariant is kept |
| Models.MemoryEntry.RemoveEmotionTag | src-tauri/src/models.rs:201-203 | only the tag list of the entry changes, and the entry invariant is kept |
| Models.ApiResponse.Success | src-tauri/src/models.rs:122-129 | a well-formed success response carrying the data and no message |
| Models.ApiResponse.SuccessEmpty | src-tauri/src/models.rs:132-139 | a well-formed success response with no data and no message |
| Models.ApiResponse.Error | src-tauri/src/models.rs:142-149 | a well-formed failure response carrying the error text, no data and no message |
| Models.ApiResponse.WithMessage | src-tauri/src/models.rs:152-155 | only the message changes, and well-formedness is kept |
| Crypto.DeriveKey | src-tauri/src/crypto.rs:55-78 | a derived key is exactly 32 bytes, a prefix of the Argon2 hash, and exists exactly when the hash exists and is at least 32 bytes long |
| Crypto.Encrypt | src-tauri/src/crypto.rs:81-113 | empty data or an empty password, and nothing else, gives the empty-input error; a success carries the base64 of the supplied nonce and salt and of the ciphertext sealed under the derived key |
| Crypto.Decrypt | src-tauri/src/crypto.rs:116-160 | a missing parameter, and nothing else, gives the missing-parameter error; a decoded nonce whose length is not 12 gives the nonce-length error before any key is derived; a success implies every check passed and a key was derived |
| Crypto.EnvelopeRoundTrip | src-tauri/src/crypto.rs:81-160 | if base64 and the cipher obey their own round-trip laws, decrypting the envelope `encrypt` produced, with the same password, gives back the data |
| Crypto.Strength | src-tauri/src/crypto.rs:163-196 | the score never exceeds 100 and the empty password scores 0 |
| Crypto.StrengthIsBonusSum | src-tauri/src/crypto.rs:168-195 | for a non-empty password the score is exactly the length bonus (+25/+15/+10 at 8/12/16 bytes) plus the class bonus (+10 lower, +10 upper, +10 digit, +20 non-alphanumeric): the cap at 100 never clips |
| Crypto.FullScoreCharacterised | src-tauri/src/crypto.rs:171-195 | the score is 100 if and only if the password has at least 16 bytes and all four character classes |
| Crypto.StrengthMonotone | src-tauri/src/crypto.rs:171-193 | appending characters never lowers the score |
| Crypto.WeakScoresTen | src-tauri/src/crypto.rs:319 | "weak" scores 10, not the 25 the test expects |
| Crypto.StrongPasswordScoresFull | src-tauri/src/crypto.rs:320 | "StrongP@ssw0rd123" scores 100, above the test's bound of 80 |
| Crypto.CharsetShape | src-tauri/src/crypto.rs:202 | the generator's alphabet is the 26 upper-case letters, the 26 lower-case letters, the 10 digits and `!@#$%^&*`, in that order: 70 characters. A character is in it exactly when it is an ASCII letter or digit or one of those eight symbols, so all are ASCII |
| Crypto.GenerateSecurePassword | src-tauri/src/crypto.rs:199-210 | the password has exactly the requested number of characters (and bytes), each an ASCII letter, an ASCII digit or one of `!@#$%^&*` |
| Crypto.IntegrityOfOwnHash | src-tauri/src/crypto.rs:224-227 | data always verifies against its own digest, as the test at line 327 expects |
| Crypto.ChangedDataRejected | src-tauri/src/crypto.rs:224-227 | with a collision-free digest, changed data fails against the original digest, as the test at line 328 expects |
| Storage.LoadAllEntries | src-tauri/src/storage.rs:153-176 | a missing or blank file reads as the empty list, a plain file as its entries, an encrypted file fails with "password required", anything else fails to parse |
| Storage.LoadEntriesWithPassword | src-tauri/src/storage.rs:200-231 | a missing or blank file reads as the empty list; a plain or unparsable file is refused as not an envelope. For an envelope: a decryption failure is passed on as a cipher error; a decrypted text that is not an entry list is a parse error; otherwise the result is the decoded entry list. An empty password is refused by `decrypt` |
| Storage.SaveAllEntries | src-tauri/src/storage.rs:179-197 | without a password the entries are written as plain JSON, which always succeeds. With a password the file is exactly the envelope `encrypt` makes of the entries' JSON under that password, salt and nonce, and an encryption error is passed on. An empty password makes the save fail |
| Storage.PlainSaveRoundTrip | src-tauri/src/storage.rs:179-197 | a plain save reads back through the password-less loader as exactly the saved list |
| Storage.SealedSaveRoundTrip | src-tauri/src/storage.rs:179-231 | if the primitives and the JSON codec obey their round-trip laws, an encrypted save read back with the same password gives exactly the saved list |
| Storage.SealedSaveNeedsPassword | src-tauri/src/storage.rs:165-169 | after an encrypted save the password-less loader fails with "password required" |
| Storage.FirstIndex | src-tauri/src/storage.rs:55 | the position is absent exactly when no entry has the id, and otherwise points at an entry with the id before which none has it |
| Storage.Find | src-tauri/src/storage.rs:82 | the lookup is absent exactly when no entry has the id, and otherwise is the first stored entry with that id |
| Storage.GetEntry | src-tauri/src/storage.rs:80-83 | a load failure is reported as an error; otherwise the result is the first loaded entry with the id, absent exactly when no entry has it |
| Storage.Upsert | src-tauri/src/storage.rs:55-59 | an existing id keeps the length and only its first position changes, to the new entry; a new id is appended; all other entries are unchanged; looking the id up afterwards finds the new entry |
| Storage.UpsertKeepsIdsUnique | src-tauri/src/storage.rs:55-59 | upserting into a collection with unique ids keeps them unique |
| Storage.SaveEntry | src-tauri/src/storage.rs:51-62 | the file written is the upsert of the entry into what the password-less loader returns (empty when it fails), saved with or without the password. Without one the save always succeeds: every entry with a different id keeps its position, lookup finds the new entry, and the collection grows by one exactly when the id was new |
| Storage.SaveEntryThenGet | src-tauri/src/storage.rs:51-83 | after a plain save, `get_entry` by the entry's id returns that entry |
| Storage.SaveEntryOverUnreadableFile | src-tauri/src/storage.rs:52 | when the password-less load fails, the save, with or without a password, writes the saved entry and nothing else |
| Storage.SealedSaveOverEncryptedKeepsOnlyEntry | src-tauri/src/storage.rs:51-62 | if the primitives and the JSON codec obey their round-trip laws, saving with a password into an encrypted file and reading it back with that password gives the new entry alone |
| Storage.RemoveById | src-tauri/src/storage.rs:69 | no remaining entry has the id, exactly the entries without it remain, the list shrinks exactly when the id was present, and unique ids stay unique |
| Storage.RemoveByIdKeepsOrder | src-tauri/src/storage.rs:69 | deletion distributes over concatenation, so survivors keep their order |
| Storage.RemoveByIdUnique | src-tauri/src/storage.rs:67-71 | with unique ids, deleting a present id removes exactly one entry |
| Storage.DeleteEntry | src-tauri/src/storage.rs:65-77 | the result is true exactly when some loaded entry had the id. When false the file is untouched. When true a plain file is written holding the loaded entries without that id, in their stored order. Afterwards no loaded entry has the id |
| Storage.DeleteTwice | src-tauri/src/storage.rs:65-77 | a second delete of the same id returns false and writes nothing |
| Storage.MatchesFilter | src-tauri/src/storage.rs:103-150 | an entry matches exactly when every present criterion holds. Keyword: a case-insensitive substring of the title or the content. Type: equal. Emotion tags and tags: a non-empty overlap, and the tags criterion needs metadata tags. Date range: inclusive at both ends |
| Storage.NoFilterMatchesAll | src-tauri/src/storage.rs:103-150 | the filter with no criteria matches every entry |
| Storage.EmptyListCriterionMatchesNothing | src-tauri/src/storage.rs:121-147 | an empty emotion-tag list or tag list in the filter matches no entry |
| Storage.NoMetadataFailsTagCriterion | src-tauri/src/storage.rs:135-147 | an entry without metadata fails any tags criterion |
| Storage.KeywordIgnoresCase | src-tauri/src/storage.rs:105-111 | a keyword and its lower-case form select the same entries |
| Storage.EmptyKeywordMatches | src-tauri/src/storage.rs:105-111 | the empty keyword matches every entry |
| Storage.FilterEntries | src-tauri/src/storage.rs:94-97 | the result holds exactly the entries that match the filter, and is no longer than the collection |
| Storage.FilterEntriesKeepsOrder | src-tauri/src/storage.rs:94-97 | filtering distributes over concatenation, so results keep their stored order |
| Storage.NoFilterReturnsAll | src-tauri/src/storage.rs:91-100 | searching with the empty filter returns the whole collection unchanged |
| Storage.SearchEntries | src-tauri/src/storage.rs:91-100 | a load failure is reported; otherwise the result is exactly the loaded entries that match, in their stored order |
| Storage.GetRandomEntry | src-tauri/src/storage.rs:290-302 | a load failure is reported; otherwise the pick is absent exactly when the collection is empty, and is otherwise one of the stored entries |
| Commands.ParseMemoryType | src-tauri/src/commands.rs:56-62 | each of "text", "image", "audio" and "mixed" gives its variant, and any other string gives `Text` |
| Commands.MemoryTypeRoundTrip | src-tauri/src/commands.rs:56-62 | parsing the serialised name of a type gives the type back |
| Commands.ParseEmotionTag | src-tauri/src/commands.rs:69 | a name parses exactly when it is one of the seven lower-case tag names, and then to the tag with that name |
| Commands.EmotionTagRoundTrip | src-tauri/src/commands.rs:69 | parsing the serialised name of a tag gives the tag back |
| Commands.CollectTags | src-tauri/src/commands.rs:68-72 | the existing tags stay as a prefix, the result holds exactly the existing tags and those named by a parsable string, it grows by at most one per name, and "no duplicates" is preserved |
| Commands.UnknownNamesDropped | src-tauri/src/commands.rs:68-72 | names that do not parse leave the tag list unchanged |
| Commands.RepeatedNameCollapses | src-tauri/src/commands.rs:68-72 | a name listed twice has the same effect as listing it once |
| Commands.DeriveMetadata | src-tauri/src/commands.rs:75-85 | the counts match the content (the word count is the character count when below 2^32, the reading time is at least one), and location, weather, mood and tags are absent |
| Commands.NewEntry | src-tauri/src/commands.rs:56-85 | the created entry has the given id, title and content, the parsed type, equal creation and update times, exactly the named tags, derived metadata, no attachments, is not encrypted, and satisfies the entry invariant |
| Commands.CreateMemoryEntry | src-tauri/src/commands.rs:45-94 | the command writes exactly the file `save_entry` produces for the created entry, with or without the password. A save error becomes the "failed to save" error. A success returns the created entry, not encrypted even when a password is given, and the file is encrypted exactly when a password was given. Without a password creation always succeeds and the entry can be looked up. An empty password fails the save |
| Commands.UpdatedEntry | src-tauri/src/commands.rs:115-126 | the update leaves id, creation time, type, encryption flag and attachments alone, stamps `now`, and applies the title and content options. Metadata stays present or absent; new content recounts its two counts and keeps the rest. A given tag list replaces the tags wholesale (an empty list clears them), and an absent one keeps them |
| Commands.UpdateMemoryEntry | src-tauri/src/commands.rs:98-135 | a failed lookup is a "failed to get" error, and a success is exactly the success response carrying the updated entry. The result is "entry not found" exactly when the id is not stored, and then nothing is written. For a stored id the command writes exactly the file `save_entry` produces for the updated entry, with or without the password, and a save error becomes "failed to update". Without a password the update succeeds, upserts the entry in place, can be looked up, and keeps the collection size |
| Commands.UpdateOnUnreadableFileFails | src-tauri/src/commands.rs:108-113 | on a file the password-less loader cannot read, the update fails with the lookup error ("password required" for an encrypted file), whatever password is given, and nothing is saved |
| Commands.DeleteMemoryEntry | src-tauri/src/commands.rs:139-155 | the file afterwards is exactly the one `delete_entry` leaves, so on success the other entries survive in order. The response is well-formed and succeeds exactly when an entry had the id. A success carries `true` and the "deleted" message. A failure is exactly the error response with the "not found" text, without a message, and leaves the file untouched. Afterwards no entry has the id |
| Commands.DeleteTwiceNotFound | src-tauri/src/commands.rs:139-155 | deleting the same id a second time gives the not-found response |
| Commands.GetAllMemoryEntries | src-tauri/src/commands.rs:175-194 | without a password the result is the password-less load, and with one it is the password load (`load_entries_with_password`); either way a success is exactly the success response carrying the loaded entries and a failure carries the loader's error. So with a password a plain or unparsable file is refused, and a missing or blank file gives the empty list |

## Left out

- Cryptographic primitives: AES-256-GCM, Argon2 and SHA-256 are function
  parameters. Confidentiality, tamper detection and the cipher's own round
  trip are not proved. `Crypto.EnvelopeRoundTrip`, `Storage.SealedSaveRoundTrip`
  and `Storage.SealedSaveOverEncryptedKeepsOnlyEntry` assume it.
- Base64 and hex encoding are function parameters too.
- UTF-8 decoding is a function parameter, and nothing is proved about it.
- Randomness: `OsRng` and `thread_rng` are arguments (salt, nonce) or a
  nondeterministic choice (the password generator and the random pick).
  Uniformity of the choice is not modelled.
- The clock: `Utc::now` is an argument.
- UUID generation: the new id is an argument, and the model does not
  require it to be fresh. A create with an id that is already stored
  replaces that entry, as the upsert in `save_entry` does.
- File I/O:
  - tokio reads and writes, directory creation, and `StorageManager::new`
    and `get_data_dir`;
  - `backup_data` (storage and command);
  - settings and dream-echo configuration persistence, whose types
    `UserSettings` and `DreamEchoConfig` are imported by `storage.rs` from a
    models file that does not define them;
  - `FileEncryption::encrypt_file` and `decrypt_file`.

  The entries file is the abstract `FileState`. Read and write failures of
  the file system are not modelled, so plain saves always succeed.
- JSON: `serde_json` is abstracted. A plain file *is* its list of entries,
  and an encrypted file *is* its envelope. The JSON text inside an envelope
  goes through the entry-list codec parameters.
- Serialisation failures of `to_string_pretty`, which cannot happen for these
  types, are not modelled.
- Commands.ParseEmotionTag: the source parses `"\"" + name + "\""` as JSON, so a
  name spelt with JSON escapes (for example `\u006aoy` for `joy`) also parses as a tag.
  The model accepts only the seven plain lower-case names.
- Storage.MatchesFilter: `to_lowercase` is Unicode-aware in the source and
  is modelled as ASCII-only lowering, so non-ASCII case differences are not
  ignored in the model.
- Crypto.Strength: the scorer takes `is_alphanumeric` as a classifier
  parameter instead of the Unicode table. Results about concrete passwords
  assume it agrees with ASCII on ASCII characters.
- Tauri plumbing: `AppHandle`, `get_storage_manager`, the unused
  `StorageManagerMap` mutex map, and handler registration in `lib.rs`.
- Thin command wrappers that only wrap one modelled operation in a success
  response: `initialize_app`, `get_memory_entry`, `search_memory_entries`,
  `encrypt_data`, `decrypt_data`, `validate_password_strength` and
  `get_random_memory`.
- `MemoryStats`: it holds an `f32` and nothing uses it.
- `EncryptedData`: nothing uses it.
- The `algorithm` field: the model has no such field.
- Commands.DeleteMemoryEntry: returns a response rather than a `Result`. In
  the model the `Err` path of `delete_entry` cannot occur, because a plain
  write never fails here.

=== FILE: commands.dfy ===
/** The command layer the front end calls: parsing of type and tag names,
    derived metadata at creation, and how store outcomes become responses or
    errors. The application handle and the storage manager's construction
    are left out; each command takes the entries file and returns the file it
    leaves behind. */
module Commands {
  import opened Wrappers
  import opened Models
  import opened Crypto
  import opened Storage

  /** Message attached to a successful deletion ("memory entry deleted"). */
  const DELETED_MESSAGE: string := "记忆条目已删除"
  /** Error text of a deletion that found nothing ("memory entry not found"). */
  const NOT_FOUND_TEXT: string := "记忆条目未找到"

  /** Errors a command returns instead of a response. */
  datatype CommandError =
    | SaveFailed(cause: StoreError)
    | GetFailed(cause: StoreError)
    | EntryNotFound
    | UpdateFailed(cause: StoreError)
    | LoadFailed(cause: StoreError)

  /** A command's response together with the entries file after it. */
  datatype Reply<T> = Reply(response: ApiResponse<T>, file: FileState)

  // ---------------------------------------------------------------------
  // Names

  /** The serialised (lower-case) name of a memory type. */
  function MemoryTypeName(t: MemoryType): string {
    match t
    case Text => "text"
    case Image => "image"
    case Audio => "audio"
    case Mixed => "mixed"
  }

  /** The type parse of `create_memory_entry`: total, with `Text` for any
      unknown name. */
  function ParseMemoryType(name: string): (t: MemoryType)
    ensures forall u :: name == MemoryTypeName(u) ==> t == u
    ensures (forall u :: name != MemoryTypeName(u)) ==> t == Text
  {
    assert MemoryTypeName(Image) == "image" && MemoryTypeName(Audio) == "audio" && MemoryTypeName(Mixed) == "mixed";
    if name == "text" then Text
    else if name == "image" then Image
    else if name == "audio" then Audio
    else if name == "mixed" then Mixed
    else Text
  }

  lemma MemoryTypeRoundTrip(t: MemoryType)
    ensures ParseMemoryType(MemoryTypeName(t)) == t
  {
  }

  /** The serialised (lower-case) name of an emotion tag. */
  function EmotionTagName(t: EmotionTag): string {
    match t
    case Joy => "joy"
    case Sadness => "sadness"
    case Nostalgia => "nostalgia"
    case Hope => "hope"
    case Regret => "regret"
    case Attachment => "attachment"
    case Persistence => "persistence"
  }

  /** Deserialising a tag name: exactly the seven lower-case names are known. */
  function ParseEmotionTag(name: string): (r: Option<EmotionTag>)
    ensures r.Some? <==> exists t :: name == EmotionTagName(t)
    ensures r.Some? ==> EmotionTagName(r.value) == name
  {
    assert EmotionTagName(Joy) == "joy" && EmotionTagName(Sadness) == "sadness" && EmotionTagName(Nostalgia) == "nostalgia";
    assert EmotionTagName(Hope) == "hope" && EmotionTagName(Regret) == "regret";
    assert EmotionTagName(EmotionTag.Attachment) == "attachment" && EmotionTagName(Persistence) == "persistence";
    if name == "joy" then Some(Joy)
    else if name == "sadness" then Some(Sadness)
    else if name == "nostalgia" then Some(Nostalgia)
    else if name == "hope" then Some(Hope)
    else if name == "regret" then Some(Regret)
    else if name == "attachment" then Some(EmotionTag.Attachment)
    else if name == "persistence" then Some(Persistence)
    else None
  }

  lemma EmotionTagRoundTrip(t: EmotionTag)
    ensures ParseEmotionTag(EmotionTagName(t)) == Some(t)
  {
  }

  /** Some name in `names` parses to `t`. */
  predicate Named(names: seq<string>, t: EmotionTag) {
    exists i :: 0 <= i < |names| && ParseEmotionTag(names[i]) == Some(t)
  }

  /** The tag loop of the commands: each name that parses is added with
      `add_emotion_tag`, unknown names are skipped. */
  function CollectTags(tags: seq<EmotionTag>, names: seq<string>): (r: seq<EmotionTag>)
    decreases |names|
    ensures |tags| <= |r| <= |tags| + |names|
    ensures r[..|tags|] == tags
    ensures forall t :: t in r <==> t in tags || Named(names, t)
    ensures NoDuplicates(tags) ==> NoDuplicates(r)
  {
    if names == [] then tags
    else
      var next := match ParseEmotionTag(names[0])
                  case Some(t) => AddTag(tags, t)
                  case None => tags;
      var r := CollectTags(next, names[1..]);
      assert forall t :: Named(names, t) <==> ParseEmotionTag(names[0]) == Some(t) || Named(names[1..], t) by {
        forall t
          ensures Named(names, t) ==> ParseEmotionTag(names[0]) == Some(t) || Named(names[1..], t)
        {
          if Named(names, t) {
            var i :| 0 <= i < |names| && ParseEmotionTag(names[i]) == Some(t);
            if i > 0 {
              assert names[1..][i - 1] == names[i];
            }
          }
        }
        forall t | Named(names[1..], t)
          ensures Named(names, t)
        {
          var i :| 0 <= i < |names[1..]| && ParseEmotionTag(names[1..][i]) == Some(t);
          assert names[i + 1] == names[1..][i];
        }
      }
      assert r[..|tags|] == next[..|next|][..|tags|];
      r
  }

  /** Names that do not parse are dropped without trace. */
  lemma {:induction false} UnknownNamesDropped(tags: seq<EmotionTag>, names: seq<string>)
    requires forall i :: 0 <= i < |names| ==> ParseEmotionTag(names[i]).None?
    ensures CollectTags(tags, names) == tags
    decreases |names|
  {
    if names != [] {
      UnknownNamesDropped(tags, names[1..]);
    }
  }

  /** Repeated names collapse: listing a name twice is the same as once. */
  lemma RepeatedNameCollapses(tags: seq<EmotionTag>, name: string)
    ensures CollectTags(tags, [name, name]) == CollectTags(tags, [name])
  {
    assert [name, name][1..] == [name];
    assert [name][1..] == [];
    match ParseEmotionTag(name)
    case None =>
    case Some(t) =>
      AddTagIdempotent(tags, t);
  }

  // ---------------------------------------------------------------------
  // Metadata

  /** The metadata `create_memory_entry` attaches: counts from the content,
      everything else absent. */
  function DeriveMetadata(content: string): (m: MemoryMetadata)
    ensures CountsMatch(content, m)
    ensures m.location.None? && m.weather.None? && m.mood.None? && m.tags.None?
    ensures |content| < U32_MODULUS ==> m.wordCount == Some(|content|)
    ensures m.readingTime.Some? && m.readingTime.value >= 1
  {
    var wordCount := WordCount(content);
    MemoryMetadata(Some(wordCount), Some(ReadingTime(wordCount)), None, None, None, None)
  }

  /** An optional password, with the salt and nonce an encrypted save draws. */
  function SealWith(password: Option<string>, salt: seq<byte>, nonce: seq<byte>): (s: Option<Sealing>)
    ensures s.Some? <==> password.Some?
    ensures s.Some? ==> s.value == Sealing(password.value, salt, nonce)
  {
    match password
    case None => None
    case Some(p) => Some(Sealing(p, salt, nonce))
  }

  // ---------------------------------------------------------------------
  // Commands

  /** The entry `create_memory_entry` builds before saving it. */
  function NewEntry(id: string, title: string, content: string, typeName: string, tagNames: seq<string>, now: Timestamp): (e: MemoryEntry)
    ensures e.id == id && e.title == title && e.content == content
    ensures e.memoryType == ParseMemoryType(typeName)
    ensures e.createdAt == e.updatedAt == now
    ensures !e.isEncrypted && e.attachments.None?
    ensures forall t :: t in e.emotionTags <==> Named(tagNames, t)
    ensures e.metadata == Some(DeriveMetadata(content))
    ensures e.Valid()
  {
    var created := MemoryEntry.New(id, title, content, ParseMemoryType(typeName), now);
    var tagged := created.(emotionTags := CollectTags(created.emotionTags, tagNames));
    tagged.(metadata := Some(DeriveMetadata(tagged.content)))
  }

  /** `create_memory_entry`, with the fresh id, the clock reading and the
      salt and nonce of an encrypted save passed in. The entry is stored
      unencrypted-flagged whether or not a password is given. */
  function CreateMemoryEntry(
    file: FileState, id: string, now: Timestamp,
    title: string, content: string, typeName: string, tagNames: seq<string>,
    password: Option<string>, salt: seq<byte>, nonce: seq<byte>, b: Backend): (r: Result<Reply<MemoryEntry>, CommandError>)
    requires |salt| == SALT_LENGTH && |nonce| == NONCE_LENGTH
    ensures r.Ok? ==> r.value.response == ApiResponse.Success(NewEntry(id, title, content, typeName, tagNames, now))
    ensures r.Ok? ==> !r.value.response.data.value.isEncrypted
    ensures r.Ok? ==> (r.value.file.Encrypted? <==> password.Some?)
    ensures password.None? ==> r.Ok? && GetEntry(r.value.file, id) == Ok(Some(r.value.response.data.value))
    ensures password.None? ==> r.value.file == Plain(Upsert(LoadAllEntries(file).UnwrapOr([]), r.value.response.data.value))
    ensures password == Some([]) ==> r == Err(SaveFailed(CipherFailed(EmptyInput)))
    ensures
      var saved := SaveEntry(file, NewEntry(id, title, content, typeName, tagNames, now), SealWith(password, salt, nonce), b);
      && (saved.Err? ==> r == Err(SaveFailed(saved.error)))
      && (saved.Ok? ==> r.Ok? && r.value.file == saved.value)
  {
    var entry := NewEntry(id, title, content, typeName, tagNames, now);
    var saved :- SaveEntry(file, entry, SealWith(password, salt, nonce), b).MapErr(e => SaveFailed(e));
    Ok(Reply(ApiResponse.Success(entry), saved))
  }

  /** The entry `update_memory_entry` saves: `update`, then a whole new tag
      list when one is given. */
  function UpdatedEntry(e: MemoryEntry, title: Option<string>, content: Option<string>, tagNames: Option<seq<string>>, now: Timestamp): (r: MemoryEntry)
    ensures r.id == e.id && r.createdAt == e.createdAt && r.memoryType == e.memoryType
    ensures r.isEncrypted == e.isEncrypted && r.attachments == e.attachments
    ensures r.updatedAt == now
    ensures r.title == if title.Some? then title.value else e.title
    ensures r.content == if content.Some? then content.value else e.content
    ensures tagNames.None? ==> r.emotionTags == e.emotionTags
    ensures tagNames.Some? ==> forall t :: t in r.emotionTags <==> Named(tagNames.value, t)
    ensures tagNames == Some([]) ==> r.emotionTags == []
    ensures r.metadata.Some? <==> e.metadata.Some?
    ensures content.None? ==> r.metadata == e.metadata
    ensures content.Some? && e.metadata.Some? ==>
      && CountsMatch(content.value, r.metadata.value)
      && r.metadata.value.(wordCount := e.metadata.value.wordCount, readingTime := e.metadata.value.readingTime) == e.metadata.value
    ensures e.Valid() && e.updatedAt <= now ==> r.Valid()
  {
    var updated := e.Update(title, content, now);
    match tagNames
    case None => updated
    case Some(names) => updated.(emotionTags := CollectTags([], names))
  }

  /** `update_memory_entry`: a missing id is an error and nothing is written. */
  function UpdateMemoryEntry(
    file: FileState, id: string, now: Timestamp,
    title: Option<string>, content: Option<string>, tagNames: Option<seq<string>>,
    password: Option<string>, salt: seq<byte>, nonce: seq<byte>, b: Backend): (r: Result<Reply<MemoryEntry>, CommandError>)
    requires |salt| == SALT_LENGTH && |nonce| == NONCE_LENGTH
    ensures GetEntry(file, id).Err? ==> r == Err(GetFailed(GetEntry(file, id).error))
    ensures r == Err(EntryNotFound) <==> GetEntry(file, id) == Ok(None)
    ensures r.Ok? ==> r.value.response == ApiResponse.Success(UpdatedEntry(GetEntry(file, id).value.value, title, content, tagNames, now))
    ensures GetEntry(file, id).Ok? && GetEntry(file, id).value.Some? ==>
      var entry := UpdatedEntry(GetEntry(file, id).value.value, title, content, tagNames, now);
      var saved := SaveEntry(file, entry, SealWith(password, salt, nonce), b);
      && (saved.Err? ==> r == Err(UpdateFailed(saved.error)))
      && (saved.Ok? ==> r.Ok? && r.value.file == saved.value)
    ensures r.Ok? ==>
      && GetEntry(file, id).Ok? && GetEntry(file, id).value.Some?
      && r.value.response.success
      && r.value.response.data == Some(UpdatedEntry(GetEntry(file, id).value.value, title, content, tagNames, now))
    ensures password.None? && GetEntry(file, id).Ok? && GetEntry(file, id).value.Some? ==>
      && r.Ok?
      && GetEntry(r.value.file, id) == Ok(r.value.response.data)
      && |r.value.file.entries| == |LoadAllEntries(file).value|
      && r.value.file == Plain(Upsert(LoadAllEntries(file).value, r.value.response.data.value))
  {
    var found :- GetEntry(file, id).MapErr(e => GetFailed(e));
    var current :- found.OkOr(EntryNotFound);
    var entry := UpdatedEntry(current, title, content, tagNames, now);
    var saved :- SaveEntry(file, entry, SealWith(password, salt, nonce), b).MapErr(e => UpdateFailed(e));
    Ok(Reply(ApiResponse.Success(entry), saved))
  }

  /** `delete_memory_entry`: a found id gives a success carrying `true` and a
      message; an absent id gives an error response, not a command error. */
  function DeleteMemoryEntry(file: FileState, id: string, b: Backend): (r: Reply<bool>)
    ensures r.response.WellFormed()
    ensures r.response.success <==> HasId(LoadAllEntries(file).UnwrapOr([]), id)
    ensures r.response.success ==> r.response.data == Some(true) && r.response.message == Some(DELETED_MESSAGE)
    ensures !r.response.success ==> r.response.error == Some(NOT_FOUND_TEXT) && r.file == file
    ensures !HasId(LoadAllEntries(r.file).UnwrapOr([]), id)
    ensures r.file == DeleteEntry(file, id, b).file
    ensures !r.response.success ==> r.response == ApiResponse.Error(NOT_FOUND_TEXT)
  {
    var outcome := DeleteEntry(file, id, b);
    if outcome.deleted then
      Reply(ApiResponse.Success(true).WithMessage(DELETED_MESSAGE), outcome.file)
    else
      Reply(ApiResponse.Error(NOT_FOUND_TEXT), outcome.file)
  }

  /** An update on a file the password-less loader cannot read (an encrypted
      or unparsable file) always fails at the lookup, whatever the password:
      `get_entry` never sees the entries, and nothing is saved. */
  lemma UpdateOnUnreadableFileFails(
    file: FileState, id: string, now: Timestamp,
    title: Option<string>, content: Option<string>, tagNames: Option<seq<string>>,
    password: Option<string>, salt: seq<byte>, nonce: seq<byte>, b: Backend)
    requires |salt| == SALT_LENGTH && |nonce| == NONCE_LENGTH
    requires LoadAllEntries(file).Err?
    ensures UpdateMemoryEntry(file, id, now, title, content, tagNames, password, salt, nonce, b) == Err(GetFailed(LoadAllEntries(file).error))
    ensures file.Encrypted? ==> UpdateMemoryEntry(file, id, now, title, content, tagNames, password, salt, nonce, b) == Err(GetFailed(PasswordRequired))
  {
  }

  /** Deleting an id a second time answers with the not-found response. */
  lemma DeleteTwiceNotFound(file: FileState, id: string, b: Backend)
    ensures !DeleteMemoryEntry(DeleteMemoryEntry(file, id, b).file, id, b).response.success
  {
  }

  /** `get_all_memory_entries`: with a password the file must be an
      envelope; without one it must not be. */
  function GetAllMemoryEntries(file: FileState, password: Option<string>, b: Backend): (r: Result<ApiResponse<seq<MemoryEntry>>, CommandError>)
    ensures password.None? ==> (r.Ok? <==> LoadAllEntries(file).Ok?)
    ensures password.None? && r.Ok? ==> r.value.data == Some(LoadAllEntries(file).value)
    ensures password.None? && r.Err? ==> r.error == LoadFailed(LoadAllEntries(file).error)
    ensures password.Some? ==> (r.Ok? <==> LoadEntriesWithPassword(file, password.value, b).Ok?)
    ensures password.Some? && r.Ok? ==> r.value.data == Some(LoadEntriesWithPassword(file, password.value, b).value)
    ensures password.Some? && r.Err? ==> r.error == LoadFailed(LoadEntriesWithPassword(file, password.value, b).error)
    ensures password.Some? && (file.Plain? || file.Unparsable?) ==> r == Err(LoadFailed(EnvelopeParseFailed))
    ensures file.Missing? || file.Blank? ==> r == Ok(ApiResponse.Success([]))
    ensures r.Ok? ==> r.value.success && r.value.WellFormed()
    ensures password.None? && r.Ok? ==> r.value == ApiResponse.Success(LoadAllEntries(file).value)
    ensures password.Some? && r.Ok? ==> r.value == ApiResponse.Success(LoadEntriesWithPassword(file, password.value, b).value)
  {
    var entries :- match password
      case Some(p) => LoadEntriesWithPassword(file, p, b).MapErr(e => LoadFailed(e))
      case None => LoadAllEntries(file).MapErr(e => LoadFailed(e));
    Ok(ApiResponse.Success(entries))
  }
}

=== FILE: crypto.dfy ===
/** The backend encryption manager: parameter checks around AES-256-GCM
    encryption under an Argon2-derived key, the password strength score,
    random password generation and the integrity check. The cipher, the key
    derivation function, base64, UTF-8 decoding and SHA-256 are collaborators
    passed in as functions; randomness is passed in as values or chosen
    nondeterministically. */
module Crypto {
  import opened Wrappers

  newtype byte = x: int | 0 <= x < 256

  const SALT_LENGTH: nat := 32
  const NONCE_LENGTH: nat := 12
  const KEY_LENGTH: nat := 32

  /** The stored envelope; every field is base64 text. */
  datatype EncryptionResult = EncryptionResult(encryptedData: string, nonce: string, salt: string)

  datatype DecryptionParams = DecryptionParams(encryptedData: string, nonce: string, salt: string, password: string)

  /** Which envelope field failed to decode. */
  datatype Field = DataField | NonceField | SaltField

  datatype CryptoError =
    | EmptyInput
    | MissingParameter
    | DecodeFailed(field: Field)
    | InvalidNonceLength
    | HashFailed
    | HashTooShort
    | EncryptionFailed
    | DecryptionFailed
    | InvalidUtf8

  /** The foreign primitives: Argon2 with default parameters (password, salt
      to raw hash bytes), AES-256-GCM sealing and opening (key, nonce, data),
      UTF-8 decoding and standard base64. */
  datatype Primitives = Primitives(
    argon2: (string, seq<byte>) -> Option<seq<byte>>,
    seal: (seq<byte>, seq<byte>, string) -> Option<seq<byte>>,
    open: (seq<byte>, seq<byte>, seq<byte>) -> Option<seq<byte>>,
    utf8Decode: seq<byte> -> Option<string>,
    base64Encode: seq<byte> -> string,
    base64Decode: string -> Option<seq<byte>>)

  /** `derive_key`: the first KEY_LENGTH bytes of the Argon2 hash, refused
      when the hash is shorter than that. */
  function DeriveKey(password: string, salt: seq<byte>, p: Primitives): (r: Result<seq<byte>, CryptoError>)
    ensures r.Ok? ==> |r.value| == KEY_LENGTH
    ensures r.Ok? <==> p.argon2(password, salt).Some? && |p.argon2(password, salt).value| >= KEY_LENGTH
    ensures r.Ok? ==> r.value <= p.argon2(password, salt).value
  {
    var hash :- p.argon2(password, salt).OkOr(HashFailed);
    if |hash| < KEY_LENGTH then Err(HashTooShort) else Ok(hash[..KEY_LENGTH])
  }

  /** `encrypt`, with the freshly generated salt and nonce passed in. Empty
      data or an empty password is refused before the salt or nonce is used. */
  function Encrypt(data: string, password: string, salt: seq<byte>, nonce: seq<byte>, p: Primitives): (r: Result<EncryptionResult, CryptoError>)
    requires |salt| == SALT_LENGTH && |nonce| == NONCE_LENGTH
    ensures r == Err(EmptyInput) <==> data == [] || password == []
    ensures r.Ok? ==>
      && r.value.nonce == p.base64Encode(nonce)
      && r.value.salt == p.base64Encode(salt)
      && DeriveKey(password, salt, p).Ok?
      && p.seal(DeriveKey(password, salt, p).value, nonce, data).Some?
      && r.value.encryptedData == p.base64Encode(p.seal(DeriveKey(password, salt, p).value, nonce, data).value)
  {
    if data == [] || password == [] then Err(EmptyInput)
    else
      var key :- DeriveKey(password, salt, p);
      var sealed :- p.seal(key, nonce, data).OkOr(EncryptionFailed);
      Ok(EncryptionResult(p.base64Encode(sealed), p.base64Encode(nonce), p.base64Encode(salt)))
  }

  /** Every decryption parameter is non-empty. */
  predicate AllPresent(params: DecryptionParams) {
    params.encryptedData != [] && params.nonce != [] && params.salt != [] && params.password != []
  }

  /** `decrypt`: presence check, base64 decoding of data, nonce and salt in
      that order, the nonce length check, then key derivation, opening and
      UTF-8 decoding. */
  function Decrypt(params: DecryptionParams, p: Primitives): (r: Result<string, CryptoError>)
    ensures r == Err(MissingParameter) <==> !AllPresent(params)
    ensures r == Err(InvalidNonceLength) <==>
      && AllPresent(params)
      && p.base64Decode(params.encryptedData).Some?
      && p.base64Decode(params.salt).Some?
      && p.base64Decode(params.nonce).Some?
      && |p.base64Decode(params.nonce).value| != NONCE_LENGTH
    ensures r.Ok? ==>
      && AllPresent(params)
      && p.base64Decode(params.nonce).Some?
      && |p.base64Decode(params.nonce).value| == NONCE_LENGTH
      && p.base64Decode(params.salt).Some?
      && DeriveKey(params.password, p.base64Decode(params.salt).value, p).Ok?
  {
    if !AllPresent(params) then Err(MissingParameter)
    else
      var sealed :- p.base64Decode(params.encryptedData).OkOr(DecodeFailed(DataField));
      var nonce :- p.base64Decode(params.nonce).OkOr(DecodeFailed(NonceField));
      var salt :- p.base64Decode(params.salt).OkOr(DecodeFailed(SaltField));
      if |nonce| != NONCE_LENGTH then Err(InvalidNonceLength)
      else
        var key :- DeriveKey(params.password, salt, p);
        var plain :- p.open(key, nonce, sealed).OkOr(DecryptionFailed);
        p.utf8Decode(plain).OkOr(InvalidUtf8)
  }

  /** Base64 decoding undoes encoding, and only empty input encodes to "". */
  ghost predicate Base64Faithful(p: Primitives) {
    forall bytes :: p.base64Decode(p.base64Encode(bytes)) == Some(bytes) && (bytes != [] ==> p.base64Encode(bytes) != [])
  }

  /** What sealed under a key and nonce is non-empty (it carries the tag) and
      opens under the same key and nonce to the UTF-8 bytes of the text. */
  ghost predicate CipherFaithful(p: Primitives) {
    forall key, nonce, text :: p.seal(key, nonce, text).Some? ==>
      && p.seal(key, nonce, text).value != []
      && p.open(key, nonce, p.seal(key, nonce, text).value).Some?
      && p.utf8Decode(p.open(key, nonce, p.seal(key, nonce, text).value).value) == Some(text)
  }

  /** The envelope `encrypt` produces decrypts, under the same password, to
      the original data: salt, nonce and ciphertext travel in the right
      fields and pass every check of `decrypt`. This rests only on the
      primitives' own laws, which are not proved here. */
  lemma EnvelopeRoundTrip(data: string, password: string, salt: seq<byte>, nonce: seq<byte>, p: Primitives)
    requires |salt| == SALT_LENGTH && |nonce| == NONCE_LENGTH
    requires Base64Faithful(p) && CipherFaithful(p)
    requires Encrypt(data, password, salt, nonce, p).Ok?
    ensures
      var env := Encrypt(data, password, salt, nonce, p).value;
      Decrypt(DecryptionParams(env.encryptedData, env.nonce, env.salt, password), p) == Ok(data)
  {
    var env := Encrypt(data, password, salt, nonce, p).value;
    var key := DeriveKey(password, salt, p).value;
    var sealed := p.seal(key, nonce, data).value;
    assert p.base64Decode(p.base64Encode(sealed)) == Some(sealed);
    assert p.base64Decode(p.base64Encode(nonce)) == Some(nonce);
    assert p.base64Decode(p.base64Encode(salt)) == Some(salt);
    assert salt != [] && nonce != [];
  }

  // ---------------------------------------------------------------------
  // Password strength

  predicate IsAsciiLowercase(c: char) { 'a' <= c <= 'z' }
  predicate IsAsciiUppercase(c: char) { 'A' <= c <= 'Z' }
  predicate IsAsciiDigit(c: char) { '0' <= c <= '9' }
  predicate IsAscii(c: char) { c as int < 0x80 }

  /** A classifier standing for Unicode `is_alphanumeric` answers like the
      ASCII letters-and-digits test on every ASCII character. */
  ghost predicate AsciiConsistent(isAlphanumeric: char -> bool) {
    forall c: char :: IsAscii(c) ==>
      (isAlphanumeric(c) <==> IsAsciiLowercase(c) || IsAsciiUppercase(c) || IsAsciiDigit(c))
  }

  /** Bytes taken by one Unicode scalar value in UTF-8. */
  function Utf8Width(c: char): (n: nat)
    ensures 1 <= n <= 4
    ensures n == 1 <==> IsAscii(c)
  {
    if c as int < 0x80 then 1
    else if c as int < 0x800 then 2
    else if c as int < 0x1_0000 then 3
    else 4
  }

  /** `str::len`: the length of the UTF-8 encoding. */
  function ByteLen(s: string): (n: nat)
    ensures n >= |s|
    ensures s == [] <==> n == 0
  {
    if s == [] then 0 else Utf8Width(s[0]) + ByteLen(s[1..])
  }

  lemma {:induction false} ByteLenAppend(a: string, b: string)
    ensures ByteLen(a + b) == ByteLen(a) + ByteLen(b)
  {
    if a != [] {
      assert (a + b)[0] == a[0];
      assert (a + b)[1..] == a[1..] + b;
      ByteLenAppend(a[1..], b);
    } else {
      assert a + b == b;
    }
  }

  /** For ASCII text bytes and characters coincide. */
  lemma {:induction false} ByteLenAscii(s: string)
    requires forall i :: 0 <= i < |s| ==> IsAscii(s[i])
    ensures ByteLen(s) == |s|
  {
    if s != [] {
      ByteLenAscii(s[1..]);
    }
  }

  /** The length bonuses: +25 from 8 bytes, +15 more from 12, +10 more from 16. */
  function LengthBonus(bytes: nat): nat {
    (if bytes >= 8 then 25 else 0) + (if bytes >= 12 then 15 else 0) + (if bytes >= 16 then 10 else 0)
  }

  predicate HasLowercase(p: string) { exists c :: c in p && IsAsciiLowercase(c) }
  predicate HasUppercase(p: string) { exists c :: c in p && IsAsciiUppercase(c) }
  predicate HasDigit(p: string) { exists c :: c in p && IsAsciiDigit(c) }
  predicate HasSymbol(p: string, isAlphanumeric: char -> bool) { exists c :: c in p && !isAlphanumeric(c) }

  /** The character-class bonuses: +10 lowercase, +10 uppercase, +10 digit,
      +20 for anything not alphanumeric. */
  function ClassBonus(p: string, isAlphanumeric: char -> bool): nat {
    (if HasLowercase(p) then 10 else 0)
    + (if HasUppercase(p) then 10 else 0)
    + (if HasDigit(p) then 10 else 0)
    + (if HasSymbol(p, isAlphanumeric) then 20 else 0)
  }

  /** `validate_password_strength`, a score between 0 and 100. */
  function Strength(password: string, isAlphanumeric: char -> bool): (score: nat)
    ensures score <= 100
    ensures password == [] ==> score == 0
  {
    if password == [] then 0
    else
      var score := LengthBonus(ByteLen(password)) + ClassBonus(password, isAlphanumeric);
      if score < 100 then score else 100
  }

  /** The final `min(100)` never clips: a non-empty password scores exactly
      the sum of its length and class bonuses. */
  lemma StrengthIsBonusSum(password: string, isAlphanumeric: char -> bool)
    requires password != []
    ensures Strength(password, isAlphanumeric) == LengthBonus(ByteLen(password)) + ClassBonus(password, isAlphanumeric)
  {
  }

  /** A full score needs, and is reached by, at least 16 bytes with every
      character class present. */
  lemma FullScoreCharacterised(password: string, isAlphanumeric: char -> bool)
    ensures Strength(password, isAlphanumeric) == 100 <==>
      && ByteLen(password) >= 16
      && HasLowercase(password) && HasUppercase(password) && HasDigit(password)
      && HasSymbol(password, isAlphanumeric)
  {
  }

  /** Appending characters never lowers the score. */
  lemma StrengthMonotone(password: string, suffix: string, isAlphanumeric: char -> bool)
    ensures Strength(password, isAlphanumeric) <= Strength(password + suffix, isAlphanumeric)
  {
    if password != [] {
      ByteLenAppend(password, suffix);
      var whole := password + suffix;
      assert forall c :: c in password ==> c in whole;
      assert ClassBonus(password, isAlphanumeric) <= ClassBonus(whole, isAlphanumeric);
    }
  }

  /** "weak" scores 10: four bytes earn no length bonus and only the
      lowercase class is present. */
  lemma WeakScoresTen(isAlphanumeric: char -> bool)
    requires AsciiConsistent(isAlphanumeric)
    ensures Strength("weak", isAlphanumeric) == 10
  {
    var w := "weak";
    assert w == ['w', 'e', 'a', 'k'];
    ByteLenAscii(w);
    assert w[0] in w;
    assert !HasSymbol(w, isAlphanumeric);
  }

  /** "StrongP@ssw0rd123" contains every character class. */
  lemma StrongPasswordHasEveryClass(isAlphanumeric: char -> bool)
    requires AsciiConsistent(isAlphanumeric)
    ensures HasLowercase("StrongP@ssw0rd123") && HasUppercase("StrongP@ssw0rd123")
    ensures HasDigit("StrongP@ssw0rd123") && HasSymbol("StrongP@ssw0rd123", isAlphanumeric)
  {
    var s := "StrongP@ssw0rd123";
    assert s[1] in s && IsAsciiLowercase(s[1]);
    assert s[0] in s && IsAsciiUppercase(s[0]);
    assert s[11] in s && IsAsciiDigit(s[11]);
    assert s[7] == '@' && IsAscii(s[7]);
    assert s[7] in s && !isAlphanumeric(s[7]);
  }

  /** "StrongP@ssw0rd123" (17 bytes, every class) reaches the full score. */
  lemma StrongPasswordScoresFull(isAlphanumeric: char -> bool)
    requires AsciiConsistent(isAlphanumeric)
    ensures Strength("StrongP@ssw0rd123", isAlphanumeric) == 100
  {
    StrongPasswordHasEveryClass(isAlphanumeric);
    FullScoreCharacterised("StrongP@ssw0rd123", isAlphanumeric);
  }

  // ---------------------------------------------------------------------
  // Password generation and integrity

  /** `count` consecutive characters starting at `first`. */
  function CharRange(first: char, count: nat): (r: string)
    requires first as int + count <= 0xD800
    ensures |r| == count
    ensures forall i :: 0 <= i < count ==> r[i] as int == first as int + i
  {
    seq(count, i requires 0 <= i < count => (first as int + i) as char)
  }

  /** The generator's alphabet. */
  const UPPER: string := "ABCDEFGHIJKLMNOPQRSTUVWXYZ"
  const LOWER: string := "abcdefghijklmnopqrstuvwxyz"
  const DIGITS: string := "0123456789"
  const SYMBOLS: string := "!@#$%^&*"
  const CHARSET: string := UPPER + LOWER + DIGITS + SYMBOLS

  /** A character the generator can emit: an ASCII letter or digit, or one
      of the eight symbols. */
  predicate GeneratorChar(c: char) {
    IsAsciiUppercase(c) || IsAsciiLowercase(c) || IsAsciiDigit(c) || c in SYMBOLS
  }

  /** The alphabet laid out as consecutive character ranges. */
  lemma CharsetPieces()
    ensures CHARSET == CharRange('A', 26) + CharRange('a', 26) + CharRange('0', 10) + SYMBOLS
  {
    assert UPPER == CharRange('A', 26);
    assert LOWER == CharRange('a', 26);
    assert DIGITS == CharRange('0', 10);
  }

  /** Every character class the generator admits occurs in the alphabet. */
  lemma GeneratorCharsInCharset(c: char)
    requires GeneratorChar(c)
    ensures c in CHARSET
  {
    if IsAsciiUppercase(c) {
      assert UPPER == CharRange('A', 26);
      assert UPPER[c as int - 'A' as int] == c;
    } else if IsAsciiLowercase(c) {
      assert LOWER == CharRange('a', 26);
      assert LOWER[c as int - 'a' as int] == c;
    } else if IsAsciiDigit(c) {
      assert DIGITS == CharRange('0', 10);
      assert DIGITS[c as int - '0' as int] == c;
    }
    assert c in UPPER || c in LOWER || c in DIGITS || c in SYMBOLS;
  }

  /** Every character of the alphabet is one the generator admits. */
  lemma CharsetCharsAdmitted(k: nat)
    requires k < |CHARSET|
    ensures GeneratorChar(CHARSET[k])
  {
    CharsetPieces();
    if k >= 62 {
      assert CHARSET[k] == SYMBOLS[k - 62];
    }
  }

  /** The alphabet is the upper-case letters, the lower-case letters, the
      digits and eight symbols, 70 ASCII characters in all. */
  lemma CharsetShape()
    ensures CHARSET == CharRange('A', 26) + CharRange('a', 26) + CharRange('0', 10) + SYMBOLS
    ensures |CHARSET| == 70
    ensures forall c :: c in CHARSET <==> GeneratorChar(c)
    ensures forall c :: GeneratorChar(c) ==> IsAscii(c)
  {
    CharsetPieces();
    forall c | GeneratorChar(c)
      ensures c in CHARSET
    {
      GeneratorCharsInCharset(c);
    }
    forall c | c in CHARSET
      ensures GeneratorChar(c)
    {
      var k :| 0 <= k < |CHARSET| && CHARSET[k] == c;
      CharsetCharsAdmitted(k);
    }
  }

  /** `generate_secure_password`: `length` characters, each picked at random
      from CHARSET; as they are ASCII the result is also `length` bytes. */
  method GenerateSecurePassword(length: nat) returns (password: string)
    ensures |password| == length
    ensures forall i :: 0 <= i < |password| ==> GeneratorChar(password[i])
    ensures ByteLen(password) == length
  {
    CharsetShape();
    password := [];
    while |password| < length
      invariant |password| <= length
      invariant forall i :: 0 <= i < |password| ==> GeneratorChar(password[i])
    {
      var k :| 0 <= k < |CHARSET|;
      assert CHARSET[k] in CHARSET;
      password := password + [CHARSET[k]];
    }
    ByteLenAscii(password);
  }

  /** `verify_integrity`: the data hashes to the expected digest. */
  function VerifyIntegrity(data: string, expectedHash: string, sha256Hex: string -> string): bool
  {
    sha256Hex(data) == expectedHash
  }

  /** Data always verifies against its own digest. */
  lemma IntegrityOfOwnHash(data: string, sha256Hex: string -> string)
    ensures VerifyIntegrity(data, sha256Hex(data), sha256Hex)
  {
  }

  /** With a collision-free digest, changed data is rejected. */
  lemma ChangedDataRejected(data: string, changed: string, sha256Hex: string -> string)
    requires forall a, b :: sha256Hex(a) == sha256Hex(b) ==> a == b
    requires changed != data
    ensures !VerifyIntegrity(changed, sha256Hex(data), sha256Hex)
  {
  }
}

=== FILE: models.dfy ===
/** The journal's records: memory entries, their metadata and emotion tags,
    search filters, and the response envelope every command returns. */
module Models {
  import opened Wrappers
  import Seqs

  /** `as u32` keeps a count modulo this. */
  const U32_MODULUS: nat := 0x1_0000_0000
  /** Reading speed behind the estimated reading time, in characters per minute. */
  const CHARS_PER_MINUTE: nat := 200

  /** `DateTime<Utc>` values, as instants on an integer time line. */
  type Timestamp = int

  datatype MemoryType = Text | Image | Audio | Mixed

  datatype EmotionTag = Joy | Sadness | Nostalgia | Hope | Regret | Attachment | Persistence

  /** A file attached to an entry (`file_size` is a `u64`). */
  datatype FileAttachment = FileAttachment(
    id: string,
    fileName: string,
    filePath: string,
    fileType: string,
    fileSize: nat,
    isEncrypted: bool,
    createdAt: Timestamp)

  /** Derived information about an entry; counts are `u32` in the record. */
  datatype MemoryMetadata = MemoryMetadata(
    wordCount: Option<nat>,
    readingTime: Option<nat>,
    location: Option<string>,
    weather: Option<string>,
    mood: Option<string>,
    tags: Option<seq<string>>)

  /** The "word count" the application records: the number of characters of
      the content, truncated to 32 bits by the `as u32` cast. */
  function WordCount(content: string): (n: nat)
    ensures n < U32_MODULUS
    ensures |content| < U32_MODULUS ==> n == |content|
  {
    |content| % U32_MODULUS
  }

  /** Estimated reading time in whole minutes, never less than one. */
  function ReadingTime(wordCount: nat): (minutes: nat)
    ensures minutes >= 1
    ensures wordCount < 2 * CHARS_PER_MINUTE ==> minutes == 1
    ensures wordCount >= CHARS_PER_MINUTE ==>
      minutes * CHARS_PER_MINUTE <= wordCount < (minutes + 1) * CHARS_PER_MINUTE
  {
    var m := wordCount / CHARS_PER_MINUTE;
    if m >= 1 then m else 1
  }

  /** The counts recorded in `m` are the ones derived from `content`. */
  predicate CountsMatch(content: string, m: MemoryMetadata) {
    && m.wordCount == Some(WordCount(content))
    && m.readingTime == Some(ReadingTime(WordCount(content)))
  }

  function TagKey(t: EmotionTag): EmotionTag {
    t
  }

  /** No emotion tag occurs twice. */
  predicate NoDuplicates(tags: seq<EmotionTag>) {
    Seqs.DistinctBy(tags, TagKey)
  }

  /** `add_emotion_tag` on the tag list: append `tag` unless already present. */
  function AddTag(tags: seq<EmotionTag>, tag: EmotionTag): (r: seq<EmotionTag>)
    ensures tag in r
    ensures forall t :: t in r <==> t in tags || t == tag
    ensures |r| == if tag in tags then |tags| else |tags| + 1
    ensures r[..|tags|] == tags
    ensures NoDuplicates(tags) ==> NoDuplicates(r)
  {
    if tag in tags then tags else tags + [tag]
  }

  /** The keep-predicate of `retain(|t| t != tag)`. */
  function Other(tag: EmotionTag): EmotionTag -> bool {
    (t: EmotionTag) => t != tag
  }

  /** `remove_emotion_tag` on the tag list: drop every occurrence of `tag`. */
  function RemoveTag(tags: seq<EmotionTag>, tag: EmotionTag): (r: seq<EmotionTag>)
    ensures tag !in r
    ensures forall t :: t != tag ==> (t in r <==> t in tags)
    ensures tag !in tags ==> r == tags
    ensures NoDuplicates(tags) ==> NoDuplicates(r)
  {
    Seqs.RetainAllKept(tags, Other(tag));
    Seqs.RetainKeepsDistinct(tags, Other(tag), TagKey);
    Seqs.Retain(tags, Other(tag))
  }

  /** Removing a tag keeps the surviving tags in their relative order: it
      distributes over any split of the list. */
  lemma RemoveTagKeepsOrder(a: seq<EmotionTag>, b: seq<EmotionTag>, tag: EmotionTag)
    ensures RemoveTag(a + b, tag) == RemoveTag(a, tag) + RemoveTag(b, tag)
  {
    Seqs.RetainAppend(a, b, Other(tag));
  }

  /** Adding a tag is idempotent. */
  lemma AddTagIdempotent(tags: seq<EmotionTag>, tag: EmotionTag)
    ensures AddTag(AddTag(tags, tag), tag) == AddTag(tags, tag)
  {
  }

  /** Adding an absent tag and removing it again restores the original list. */
  lemma AddThenRemoveRestores(tags: seq<EmotionTag>, tag: EmotionTag)
    requires tag !in tags
    ensures RemoveTag(AddTag(tags, tag), tag) == tags
  {
    RemoveTagKeepsOrder(tags, [tag], tag);
    assert Seqs.Retain([tag], Other(tag)) == [];
  }

  datatype MemoryEntry = MemoryEntry(
    id: string,
    title: string,
    content: string,
    memoryType: MemoryType,
    emotionTags: seq<EmotionTag>,
    createdAt: Timestamp,
    updatedAt: Timestamp,
    isEncrypted: bool,
    attachments: Option<seq<FileAttachment>>,
    metadata: Option<MemoryMetadata>)
  {
    /** What the entry operations maintain: time does not run backwards, tags
        are a set, and recorded counts match the content. */
    predicate Valid() {
      && createdAt <= updatedAt
      && NoDuplicates(emotionTags)
      && (metadata.Some? ==> CountsMatch(content, metadata.value))
    }

    /** `MemoryEntry::new`, with the fresh UUID and the clock reading passed in. */
    static function New(id: string, title: string, content: string, memoryType: MemoryType, now: Timestamp): (e: MemoryEntry)
      ensures e.id == id && e.title == title && e.content == content && e.memoryType == memoryType
      ensures e.createdAt == e.updatedAt == now
      ensures e.emotionTags == [] && !e.isEncrypted
      ensures e.attachments.None? && e.metadata.None?
      ensures e.Valid()
    {
      MemoryEntry(id, title, content, memoryType, [], now, now, false, None, None)
    }

    /** `update`: replace the given fields, refresh the derived counts when the
        content changes and metadata exists, and stamp `now`. */
    function Update(newTitle: Option<string>, newContent: Option<string>, now: Timestamp): (r: MemoryEntry)
      ensures r.id == id && r.createdAt == createdAt && r.memoryType == memoryType
      ensures r.emotionTags == emotionTags && r.isEncrypted == isEncrypted && r.attachments == attachments
      ensures r.updatedAt == now
      ensures r.title == if newTitle.Some? then newTitle.value else title
      ensures r.content == if newContent.Some? then newContent.value else content
      ensures r.metadata.Some? <==> metadata.Some?
      ensures newContent.None? ==> r.metadata == metadata
      ensures newContent.Some? && metadata.Some? ==>
        && CountsMatch(newContent.value, r.metadata.value)
        && r.metadata.value.(wordCount := metadata.value.wordCount, readingTime := metadata.value.readingTime) == metadata.value
      ensures Valid() && updatedAt <= now ==> r.Valid()
    {
      var titled := if newTitle.Some? then this.(title := newTitle.value) else this;
      var written :=
        if newContent.Some? then
          var c := newContent.value;
          var m := if metadata.Some? then
                     Some(metadata.value.(wordCount := Some(WordCount(c)), readingTime := Some(ReadingTime(WordCount(c)))))
                   else None;
          titled.(content := c, metadata := m)
        else titled;
      written.(updatedAt := now)
    }

    /** `add_emotion_tag`: only the tag list changes. */
    function AddEmotionTag(tag: EmotionTag): (r: MemoryEntry)
      ensures r.(emotionTags := emotionTags) == this
      ensures r.emotionTags == AddTag(emotionTags, tag)
      ensures Valid() ==> r.Valid()
    {
      this.(emotionTags := AddTag(emotionTags, tag))
    }

    /** `remove_emotion_tag`: only the tag list changes. */
    function RemoveEmotionTag(tag: EmotionTag): (r: MemoryEntry)
      ensures r.(emotionTags := emotionTags) == this
      ensures r.emotionTags == RemoveTag(emotionTags, tag)
      ensures Valid() ==> r.Valid()
    {
      this.(emotionTags := RemoveTag(emotionTags, tag))
    }
  }

  /** An update that supplies neither title nor content only moves the
      modification time. */
  lemma UpdateNothingTouchesOnlyTime(e: MemoryEntry, now: Timestamp)
    ensures e.Update(None, None, now) == e.(updatedAt := now)
  {
  }

  datatype DateRange = DateRange(start: Timestamp, end: Timestamp)

  /** Search criteria; each present criterion must hold. */
  datatype SearchFilter = SearchFilter(
    keyword: Option<string>,
    memoryType: Option<MemoryType>,
    emotionTags: Option<seq<EmotionTag>>,
    dateRange: Option<DateRange>,
    tags: Option<seq<string>>)

  /** The response envelope of every command: a success flag with optional
      data, error text and message. */
  datatype ApiResponse<T> = ApiResponse(success: bool, data: Option<T>, error: Option<string>, message: Option<string>)
  {
    /** A success carries no error; a failure carries an error and no data. */
    predicate WellFormed() {
      && (success ==> error.None?)
      && (!success ==> data.None? && error.Some?)
    }

    static function Success(value: T): (r: ApiResponse<T>)
      ensures r.WellFormed() && r.success
      ensures r.data == Some(value) && r.message.None?
    {
      ApiResponse(true, Some(value), None, None)
    }

    static function SuccessEmpty(): (r: ApiResponse<T>)
      ensures r.WellFormed() && r.success
      ensures r.data.None? && r.message.None?
    {
      ApiResponse(true, None, None, None)
    }

    static function Error(reason: string): (r: ApiResponse<T>)
      ensures r.WellFormed() && !r.success
      ensures r.error == Some(reason) && r.message.None?
    {
      ApiResponse(false, None, Some(reason), None)
    }

    /** `with_message`: only the message changes. */
    function WithMessage(text: string): (r: ApiResponse<T>)
      ensures r.message == Some(text)
      ensures r.(message := message) == this
      ensures WellFormed() ==> r.WellFormed()
    {
      this.(message := Some(text))
    }
  }
}

=== FILE: seqs.dfy ===
/** Order-preserving filtering of sequences: Rust's `retain` and
    `iter().filter(..).collect()`, used for tag removal, entry deletion and
    search alike. */
module Seqs {

  /** The elements of `s` that satisfy `keep`, in their original order. */
  function Retain<T(!new)>(s: seq<T>, keep: T -> bool): (r: seq<T>)
    ensures |r| <= |s|
    ensures forall x :: x in r <==> x in s && keep(x)
    ensures |r| == |s| <==> forall i :: 0 <= i < |s| ==> keep(s[i])
  {
    if s == [] then []
    else if keep(s[0]) then [s[0]] + Retain(s[1..], keep)
    else Retain(s[1..], keep)
  }

  /** Filtering distributes over concatenation: kept elements keep their
      relative order. */
  lemma {:induction false} RetainAppend<T(!new)>(a: seq<T>, b: seq<T>, keep: T -> bool)
    ensures Retain(a + b, keep) == Retain(a, keep) + Retain(b, keep)
  {
    if a == [] {
      assert a + b == b;
    } else {
      assert (a + b)[0] == a[0];
      assert (a + b)[1..] == a[1..] + b;
      RetainAppend(a[1..], b, keep);
    }
  }

  /** Filtering with a predicate every element satisfies is the identity. */
  lemma {:induction false} RetainAllKept<T(!new)>(s: seq<T>, keep: T -> bool)
    ensures (forall i :: 0 <= i < |s| ==> keep(s[i])) ==> Retain(s, keep) == s
  {
    if s != [] && forall i :: 0 <= i < |s| ==> keep(s[i]) {
      RetainAllKept(s[1..], keep);
      assert [s[0]] + s[1..] == s;
    }
  }

  /** No two elements of `s` share a key. */
  predicate DistinctBy<T, K(==)>(s: seq<T>, key: T -> K) {
    forall i, j :: 0 <= i < j < |s| ==> key(s[i]) != key(s[j])
  }

  /** Filtering never introduces a repeated key. */
  lemma {:induction false} RetainKeepsDistinct<T(!new), K>(s: seq<T>, keep: T -> bool, key: T -> K)
    ensures DistinctBy(s, key) ==> DistinctBy(Retain(s, keep), key)
  {
    if s != [] && DistinctBy(s, key) {
      var tail := s[1..];
      assert DistinctBy(tail, key) by {
        forall i, j | 0 <= i < j < |tail|
          ensures key(tail[i]) != key(tail[j])
        {
          assert tail[i] == s[i + 1] && tail[j] == s[j + 1];
        }
      }
      RetainKeepsDistinct(tail, keep, key);
      var rest := Retain(tail, keep);
      if keep(s[0]) {
        forall j | 0 <= j < |rest|
          ensures key(s[0]) != key(rest[j])
        {
          assert rest[j] in tail;
          var k :| 0 <= k < |tail| && tail[k] == rest[j];
          assert tail[k] == s[k + 1];
        }
        var r := [s[0]] + rest;
        forall i, j | 0 <= i < j < |r|
          ensures key(r[i]) != key(r[j])
        {
          if i == 0 {
            assert r[j] == rest[j - 1];
          } else {
            assert r[i] == rest[i - 1] && r[j] == rest[j - 1];
          }
        }
      }
    }
  }
}

=== FILE: storage.dfy ===
/** The storage manager's entry collection: the entries file as the loaders
    see it, upsert and delete by id, lookup, filtered search and the random
    pick. The collection is an ordered sequence of entries; the file is
    abstracted to the cases the loaders distinguish. */
module Storage {
  import opened Wrappers
  import opened Models
  import opened Crypto
  import Seqs

  /** The entries file, classified the way the loaders read it. */
  datatype FileState =
    | Missing                                 // no file yet
    | Blank                                   // empty or whitespace only
    | Plain(entries: seq<MemoryEntry>)        // a JSON array of entries
    | Encrypted(envelope: EncryptionResult)   // a JSON encryption envelope
    | Unparsable                              // any other content

  datatype StoreError =
    | PasswordRequired
    | EntriesParseFailed
    | EnvelopeParseFailed
    | CipherFailed(cause: CryptoError)
    | DecryptedParseFailed

  /** The foreign collaborators of the store: the cipher primitives and the
      JSON (de)serialisation of an entry list. */
  datatype Backend = Backend(
    primitives: Primitives,
    entriesToJson: seq<MemoryEntry> -> string,
    entriesFromJson: string -> Option<seq<MemoryEntry>>)

  /** A password for an encrypted save, with the salt and nonce that save
      draws from the system random source. */
  datatype Sealing = Sealing(password: string, salt: seq<byte>, nonce: seq<byte>)

  predicate SealingShaped(sealing: Option<Sealing>) {
    sealing.Some? ==> |sealing.value.salt| == SALT_LENGTH && |sealing.value.nonce| == NONCE_LENGTH
  }

  // ---------------------------------------------------------------------
  // Loading and saving the whole collection

  /** `load_all_entries`: nothing stored reads as the empty list; an
      encrypted file is refused because no password is at hand. */
  function LoadAllEntries(file: FileState): (r: Result<seq<MemoryEntry>, StoreError>)
    ensures r.Ok? <==> file.Missing? || file.Blank? || file.Plain?
    ensures r.Ok? && file.Plain? ==> r.value == file.entries
    ensures r.Ok? && !file.Plain? ==> r.value == []
    ensures file.Encrypted? ==> r == Err(PasswordRequired)
    ensures file.Unparsable? ==> r == Err(EntriesParseFailed)
  {
    match file
    case Missing => Ok([])
    case Blank => Ok([])
    case Encrypted(_) => Err(PasswordRequired)
    case Plain(entries) => Ok(entries)
    case Unparsable => Err(EntriesParseFailed)
  }

  /** `load_entries_with_password`: nothing stored reads as the empty list;
      otherwise the content must be an envelope that decrypts under
      `password` to a JSON entry list. */
  function LoadEntriesWithPassword(file: FileState, password: string, b: Backend): (r: Result<seq<MemoryEntry>, StoreError>)
    ensures file.Missing? || file.Blank? ==> r == Ok([])
    ensures file.Plain? || file.Unparsable? ==> r == Err(EnvelopeParseFailed)
    ensures file.Encrypted? && r.Ok? ==>
      var env := file.envelope;
      var text := Decrypt(DecryptionParams(env.encryptedData, env.nonce, env.salt, password), b.primitives);
      text.Ok? && b.entriesFromJson(text.value) == Some(r.value)
    ensures file.Encrypted? ==>
      var env := file.envelope;
      var text := Decrypt(DecryptionParams(env.encryptedData, env.nonce, env.salt, password), b.primitives);
      && (text.Err? ==> r == Err(CipherFailed(text.error)))
      && (text.Ok? && b.entriesFromJson(text.value).None? ==> r == Err(DecryptedParseFailed))
      && (text.Ok? && b.entriesFromJson(text.value).Some? ==> r == Ok(b.entriesFromJson(text.value).value))
    ensures password == [] && file.Encrypted? ==> r == Err(CipherFailed(MissingParameter))
  {
    match file
    case Missing => Ok([])
    case Blank => Ok([])
    case Plain(_) => Err(EnvelopeParseFailed)
    case Unparsable => Err(EnvelopeParseFailed)
    case Encrypted(env) =>
      var params := DecryptionParams(env.encryptedData, env.nonce, env.salt, password);
      var text :- Decrypt(params, b.primitives).MapErr(e => CipherFailed(e));
      b.entriesFromJson(text).OkOr(DecryptedParseFailed)
  }

  /** `save_all_entries`: plain JSON without a password, an envelope with one. */
  function SaveAllEntries(entries: seq<MemoryEntry>, sealing: Option<Sealing>, b: Backend): (r: Result<FileState, StoreError>)
    requires SealingShaped(sealing)
    ensures sealing.None? ==> r == Ok(Plain(entries))
    ensures r.Ok? ==> (r.value.Encrypted? <==> sealing.Some?)
    ensures sealing.Some? ==>
      var s := sealing.value;
      var env := Encrypt(b.entriesToJson(entries), s.password, s.salt, s.nonce, b.primitives);
      && (env.Ok? ==> r == Ok(Encrypted(env.value)))
      && (env.Err? ==> r == Err(CipherFailed(env.error)))
    ensures sealing.Some? && sealing.value.password == [] ==> r == Err(CipherFailed(EmptyInput))
  {
    match sealing
    case None => Ok(Plain(entries))
    case Some(s) =>
      var env :- Encrypt(b.entriesToJson(entries), s.password, s.salt, s.nonce, b.primitives).MapErr(e => CipherFailed(e));
      Ok(Encrypted(env))
  }

  /** A plain save reads back as exactly the saved list. */
  lemma PlainSaveRoundTrip(entries: seq<MemoryEntry>, b: Backend)
    ensures SaveAllEntries(entries, None, b).Ok?
    ensures LoadAllEntries(SaveAllEntries(entries, None, b).value) == Ok(entries)
  {
  }

  /** The entry-list codec reads back what it writes. */
  ghost predicate JsonFaithful(b: Backend) {
    forall entries :: b.entriesFromJson(b.entriesToJson(entries)) == Some(entries)
  }

  /** An encrypted save reads back, under the same password, as exactly the
      saved list, provided the primitives and the codec obey their own
      round-trip laws. */
  lemma SealedSaveRoundTrip(entries: seq<MemoryEntry>, sealing: Sealing, b: Backend)
    requires SealingShaped(Some(sealing))
    requires Base64Faithful(b.primitives) && CipherFaithful(b.primitives) && JsonFaithful(b)
    requires SaveAllEntries(entries, Some(sealing), b).Ok?
    ensures LoadEntriesWithPassword(SaveAllEntries(entries, Some(sealing), b).value, sealing.password, b) == Ok(entries)
  {
    EnvelopeRoundTrip(b.entriesToJson(entries), sealing.password, sealing.salt, sealing.nonce, b.primitives);
  }

  /** After an encrypted save the password-less loader refuses the file. */
  lemma SealedSaveNeedsPassword(entries: seq<MemoryEntry>, sealing: Sealing, b: Backend)
    requires SealingShaped(Some(sealing))
    requires SaveAllEntries(entries, Some(sealing), b).Ok?
    ensures LoadAllEntries(SaveAllEntries(entries, Some(sealing), b).value) == Err(PasswordRequired)
  {
  }

  // ---------------------------------------------------------------------
  // Lookup by id

  predicate HasId(entries: seq<MemoryEntry>, id: string) {
    exists j :: 0 <= j < |entries| && entries[j].id == id
  }

  function EntryId(e: MemoryEntry): string {
    e.id
  }

  /** No two entries share an id. */
  predicate UniqueIds(entries: seq<MemoryEntry>) {
    Seqs.DistinctBy(entries, EntryId)
  }

  /** `position(|e| e.id == id)`: the index of the first entry with `id`. */
  function FirstIndex(entries: seq<MemoryEntry>, id: string): (r: Option<nat>)
    ensures r.None? <==> !HasId(entries, id)
    ensures r.Some? ==>
      && r.value < |entries|
      && entries[r.value].id == id
      && forall j :: 0 <= j < r.value ==> entries[j].id != id
  {
    if entries == [] then None
    else if entries[0].id == id then Some(0)
    else
      match FirstIndex(entries[1..], id)
      case None => None
      case Some(k) => Some(k + 1)
  }

  /** `find(|e| e.id == id)`: the first entry with `id`, if any. */
  function Find(entries: seq<MemoryEntry>, id: string): (r: Option<MemoryEntry>)
    ensures r.None? <==> !HasId(entries, id)
    ensures r.Some? ==> r.value in entries && r.value.id == id
    ensures r.Some? ==> exists i :: 0 <= i < |entries| && entries[i] == r.value && forall j :: 0 <= j < i ==> entries[j].id != id
  {
    match FirstIndex(entries, id)
    case None => None
    case Some(i) => Some(entries[i])
  }

  /** `get_entry`: a load failure is reported, not treated as empty. */
  function GetEntry(file: FileState, id: string): (r: Result<Option<MemoryEntry>, StoreError>)
    ensures r.Err? <==> LoadAllEntries(file).Err?
    ensures r.Ok? ==> (r.value.None? <==> !HasId(LoadAllEntries(file).value, id))
    ensures r.Ok? && r.value.Some? ==> r.value.value in LoadAllEntries(file).value && r.value.value.id == id
    ensures r.Ok? ==> r.value == Find(LoadAllEntries(file).value, id)
  {
    var entries :- LoadAllEntries(file);
    Ok(Find(entries, id))
  }

  // ---------------------------------------------------------------------
  // Upsert

  /** Replace the first entry with the same id, or append when there is none. */
  function Upsert(entries: seq<MemoryEntry>, entry: MemoryEntry): (r: seq<MemoryEntry>)
    ensures |r| == if HasId(entries, entry.id) then |entries| else |entries| + 1
    ensures forall j :: 0 <= j < |entries| ==>
      r[j] == entries[j] || (r[j] == entry && FirstIndex(entries, entry.id) == Some(j))
    ensures !HasId(entries, entry.id) ==> r[|entries|] == entry
    ensures Find(r, entry.id) == Some(entry)
  {
    match FirstIndex(entries, entry.id)
    case Some(i) =>
      var r := entries[i := entry];
      assert FirstIndex(r, entry.id) == Some(i) by {
        assert forall j :: 0 <= j < i ==> r[j] == entries[j];
        assert r[i].id == entry.id;
      }
      r
    case None =>
      var r := entries + [entry];
      assert FirstIndex(r, entry.id) == Some(|entries|) by {
        assert forall j :: 0 <= j < |entries| ==> r[j] == entries[j];
        assert r[|entries|].id == entry.id;
      }
      r
  }

  /** Upserting keeps ids unique. */
  lemma UpsertKeepsIdsUnique(entries: seq<MemoryEntry>, entry: MemoryEntry)
    requires UniqueIds(entries)
    ensures UniqueIds(Upsert(entries, entry))
  {
    var r := Upsert(entries, entry);
    forall i, j | 0 <= i < j < |r|
      ensures EntryId(r[i]) != EntryId(r[j])
    {
      if HasId(entries, entry.id) {
        var k := FirstIndex(entries, entry.id).value;
        assert r[i].id == entries[i].id && r[j].id == entries[j].id;
      } else if j == |entries| {
        assert r[i] == entries[i];
      } else {
        assert r[i] == entries[i] && r[j] == entries[j];
      }
    }
  }

  /** `save_entry`: upsert into whatever the password-less loader returns,
      an empty list when it fails, and write the result back. */
  function SaveEntry(file: FileState, entry: MemoryEntry, sealing: Option<Sealing>, b: Backend): (r: Result<FileState, StoreError>)
    requires SealingShaped(sealing)
    ensures sealing.None? ==> r.Ok? && r.value.Plain?
    ensures r.Ok? ==> (r.value.Encrypted? <==> sealing.Some?)
    ensures sealing.None? ==> Find(r.value.entries, entry.id) == Some(entry)
    ensures sealing.None? ==>
      |r.value.entries| == |LoadAllEntries(file).UnwrapOr([])| + (if HasId(LoadAllEntries(file).UnwrapOr([]), entry.id) then 0 else 1)
    ensures sealing.None? ==>
      var loaded := LoadAllEntries(file).UnwrapOr([]);
      forall j :: 0 <= j < |loaded| && loaded[j].id != entry.id ==> r.value.entries[j] == loaded[j]
    ensures sealing.None? ==> r == Ok(Plain(Upsert(LoadAllEntries(file).UnwrapOr([]), entry)))
    ensures sealing.Some? ==> r == SaveAllEntries(Upsert(LoadAllEntries(file).UnwrapOr([]), entry), sealing, b)
  {
    var entries := LoadAllEntries(file).UnwrapOr([]);
    SaveAllEntries(Upsert(entries, entry), sealing, b)
  }

  /** A plain save is visible to `get_entry` right away. */
  lemma SaveEntryThenGet(file: FileState, entry: MemoryEntry, b: Backend)
    ensures SaveEntry(file, entry, None, b).Ok?
    ensures GetEntry(SaveEntry(file, entry, None, b).value, entry.id) == Ok(Some(entry))
  {
  }

  /** When the file cannot be read without a password (an encrypted or
      unparsable file), saving an entry, with or without a password, writes
      that entry alone: every earlier entry is dropped. */
  lemma SaveEntryOverUnreadableFile(file: FileState, entry: MemoryEntry, sealing: Option<Sealing>, b: Backend)
    requires SealingShaped(sealing)
    requires LoadAllEntries(file).Err?
    ensures SaveEntry(file, entry, sealing, b) == SaveAllEntries([entry], sealing, b)
    ensures sealing.None? ==> SaveEntry(file, entry, sealing, b) == Ok(Plain([entry]))
  {
    assert Upsert([], entry) == [entry];
  }

  /** Saving with a password into an encrypted file re-encrypts the one new
      entry: reading the file back with that password gives `[entry]`, and
      the entries the file held before are gone. */
  lemma SealedSaveOverEncryptedKeepsOnlyEntry(file: FileState, entry: MemoryEntry, sealing: Sealing, b: Backend)
    requires file.Encrypted?
    requires SealingShaped(Some(sealing))
    requires Base64Faithful(b.primitives) && CipherFaithful(b.primitives) && JsonFaithful(b)
    requires SaveEntry(file, entry, Some(sealing), b).Ok?
    ensures LoadEntriesWithPassword(SaveEntry(file, entry, Some(sealing), b).value, sealing.password, b) == Ok([entry])
  {
    SaveEntryOverUnreadableFile(file, entry, Some(sealing), b);
    SealedSaveRoundTrip([entry], sealing, b);
  }

  // ---------------------------------------------------------------------
  // Delete

  /** The keep-predicate of `retain(|e| e.id != id)`. */
  function NotId(id: string): MemoryEntry -> bool {
    (e: MemoryEntry) => e.id != id
  }

  /** Drop every entry with `id`, keeping the rest in order. */
  function RemoveById(entries: seq<MemoryEntry>, id: string): (r: seq<MemoryEntry>)
    ensures !HasId(r, id)
    ensures forall e :: e in r <==> e in entries && e.id != id
    ensures |r| < |entries| <==> HasId(entries, id)
    ensures UniqueIds(entries) ==> UniqueIds(r)
  {
    var r := Seqs.Retain(entries, NotId(id));
    assert !HasId(r, id) by {
      forall j | 0 <= j < |r|
        ensures r[j].id != id
      {
        assert r[j] in r;
      }
    }
    Seqs.RetainKeepsDistinct(entries, NotId(id), EntryId);
    r
  }

  /** Deletion keeps the survivors in their relative order. */
  lemma RemoveByIdKeepsOrder(a: seq<MemoryEntry>, b: seq<MemoryEntry>, id: string)
    ensures RemoveById(a + b, id) == RemoveById(a, id) + RemoveById(b, id)
  {
    Seqs.RetainAppend(a, b, NotId(id));
  }

  /** With unique ids, deleting a present id removes exactly one entry. */
  lemma {:induction false} RemoveByIdUnique(entries: seq<MemoryEntry>, id: string)
    requires UniqueIds(entries)
    requires HasId(entries, id)
    ensures |RemoveById(entries, id)| == |entries| - 1
  {
    var i := FirstIndex(entries, id).value;
    assert entries == entries[..i] + [entries[i]] + entries[i + 1..];
    RemoveByIdKeepsOrder(entries[..i] + [entries[i]], entries[i + 1..], id);
    RemoveByIdKeepsOrder(entries[..i], [entries[i]], id);
    assert !HasId(entries[..i], id);
    Seqs.RetainAllKept(entries[..i], NotId(id));
    var rest := entries[i + 1..];
    assert !HasId(rest, id) by {
      forall j | 0 <= j < |rest|
        ensures rest[j].id != id
      {
        assert rest[j] == entries[i + 1 + j];
        assert EntryId(entries[i]) != EntryId(entries[i + 1 + j]);
      }
    }
    Seqs.RetainAllKept(rest, NotId(id));
    assert Seqs.Retain([entries[i]], NotId(id)) == [];
  }

  /** The outcome of `delete_entry`: whether an entry went, and the file after. */
  datatype Deletion = Deletion(deleted: bool, file: FileState)

  /** `delete_entry`: drop every entry with `id` from what the password-less
      loader returns (empty on failure); write plain JSON only if something
      went. */
  function DeleteEntry(file: FileState, id: string, b: Backend): (r: Deletion)
    ensures r.deleted <==> HasId(LoadAllEntries(file).UnwrapOr([]), id)
    ensures !r.deleted ==> r.file == file
    ensures r.deleted ==> r.file.Plain? && !HasId(r.file.entries, id)
    ensures r.deleted ==> forall e :: e in r.file.entries <==> e in LoadAllEntries(file).value && e.id != id
    ensures r.deleted ==> r.file == Plain(RemoveById(LoadAllEntries(file).value, id))
    ensures !HasId(LoadAllEntries(r.file).UnwrapOr([]), id)
  {
    var entries := LoadAllEntries(file).UnwrapOr([]);
    var kept := RemoveById(entries, id);
    if |kept| < |entries| then
      Deletion(true, SaveAllEntries(kept, None, b).value)
    else
      Deletion(false, file)
  }

  /** Deleting the same id twice: the second call finds nothing and writes nothing. */
  lemma DeleteTwice(file: FileState, id: string, b: Backend)
    ensures !DeleteEntry(DeleteEntry(file, id, b).file, id, b).deleted
    ensures DeleteEntry(DeleteEntry(file, id, b).file, id, b).file == DeleteEntry(file, id, b).file
  {
  }

  // ---------------------------------------------------------------------
  // Search

  /** `to_lowercase`, restricted to ASCII letters. */
  function LowerChar(c: char): char {
    if 'A' <= c <= 'Z' then (c as int + 32) as char else c
  }

  function Lower(s: string): (r: string)
    ensures |r| == |s|
    ensures forall i :: 0 <= i < |s| ==> r[i] == LowerChar(s[i])
  {
    seq(|s|, i requires 0 <= i < |s| => LowerChar(s[i]))
  }

  /** `str::contains`: `part` occurs in `text` at some position. */
  predicate Contains(text: string, part: string) {
    exists i :: 0 <= i <= |text| && part <= text[i..]
  }

  predicate KeywordMatches(e: MemoryEntry, keyword: string) {
    Contains(Lower(e.title), Lower(keyword)) || Contains(Lower(e.content), Lower(keyword))
  }

  predicate SharesEmotion(e: MemoryEntry, wanted: seq<EmotionTag>) {
    exists t :: t in wanted && t in e.emotionTags
  }

  /** Inclusive at both ends. */
  predicate CreatedWithin(e: MemoryEntry, range: DateRange) {
    range.start <= e.createdAt <= range.end
  }

  /** The entry has metadata tags and shares one with `wanted`. */
  predicate SharesTag(e: MemoryEntry, wanted: seq<string>) {
    && e.metadata.Some?
    && e.metadata.value.tags.Some?
    && exists t :: t in wanted && t in e.metadata.value.tags.value
  }

  /** `matches_filter`: the criteria are checked in turn and the first one
      that fails rejects the entry. */
  function MatchesFilter(e: MemoryEntry, f: SearchFilter): (ok: bool)
    ensures ok <==>
      && (f.keyword.Some? ==> KeywordMatches(e, f.keyword.value))
      && (f.memoryType.Some? ==> e.memoryType == f.memoryType.value)
      && (f.emotionTags.Some? ==> SharesEmotion(e, f.emotionTags.value))
      && (f.dateRange.Some? ==> CreatedWithin(e, f.dateRange.value))
      && (f.tags.Some? ==> SharesTag(e, f.tags.value))
  {
    if f.keyword.Some? && !KeywordMatches(e, f.keyword.value) then false
    else if f.memoryType.Some? && e.memoryType != f.memoryType.value then false
    else if f.emotionTags.Some? && !SharesEmotion(e, f.emotionTags.value) then false
    else if f.dateRange.Some? && (e.createdAt < f.dateRange.value.start || e.createdAt > f.dateRange.value.end) then false
    else if f.tags.Some? then
      match e.metadata
      case None => false
      case Some(m) =>
        match m.tags
        case None => false
        case Some(entryTags) => exists t :: t in f.tags.value && t in entryTags
    else true
  }

  const NoFilter := SearchFilter(None, None, None, None, None)

  /** The filter with every criterion absent accepts every entry. */
  lemma NoFilterMatchesAll(e: MemoryEntry)
    ensures MatchesFilter(e, NoFilter)
  {
  }

  /** An empty emotion or tag list accepts nothing. */
  lemma EmptyListCriterionMatchesNothing(e: MemoryEntry, f: SearchFilter)
    requires f.emotionTags == Some([]) || f.tags == Some([])
    ensures !MatchesFilter(e, f)
  {
  }

  /** An entry without metadata fails every tags criterion. */
  lemma NoMetadataFailsTagCriterion(e: MemoryEntry, f: SearchFilter)
    requires e.metadata.None? && f.tags.Some?
    ensures !MatchesFilter(e, f)
  {
  }

  /** Keyword matching ignores ASCII case: a keyword and its lower-case form
      select the same entries. */
  lemma KeywordIgnoresCase(e: MemoryEntry, f: SearchFilter, keyword: string)
    ensures MatchesFilter(e, f.(keyword := Some(keyword))) == MatchesFilter(e, f.(keyword := Some(Lower(keyword))))
  {
    assert Lower(Lower(keyword)) == Lower(keyword);
  }

  /** An empty keyword occurs in every title. */
  lemma EmptyKeywordMatches(e: MemoryEntry)
    ensures KeywordMatches(e, "")
  {
    assert "" <= Lower(e.title)[0..];
  }

  /** The keep-predicate of the search filter. */
  function Matcher(f: SearchFilter): MemoryEntry -> bool {
    (e: MemoryEntry) => MatchesFilter(e, f)
  }

  /** The entries matching `f`, in their stored order. */
  function FilterEntries(entries: seq<MemoryEntry>, f: SearchFilter): (r: seq<MemoryEntry>)
    ensures forall e :: e in r <==> e in entries && MatchesFilter(e, f)
    ensures |r| <= |entries|
  {
    Seqs.Retain(entries, Matcher(f))
  }

  /** Search keeps the stored order: it distributes over any split. */
  lemma FilterEntriesKeepsOrder(a: seq<MemoryEntry>, b: seq<MemoryEntry>, f: SearchFilter)
    ensures FilterEntries(a + b, f) == FilterEntries(a, f) + FilterEntries(b, f)
  {
    Seqs.RetainAppend(a, b, Matcher(f));
  }

  /** Searching with the empty filter returns the whole collection. */
  lemma NoFilterReturnsAll(entries: seq<MemoryEntry>)
    ensures FilterEntries(entries, NoFilter) == entries
  {
    Seqs.RetainAllKept(entries, Matcher(NoFilter));
  }

  /** `search_entries`: a load failure is reported. */
  function SearchEntries(file: FileState, f: SearchFilter): (r: Result<seq<MemoryEntry>, StoreError>)
    ensures r.Err? <==> LoadAllEntries(file).Err?
    ensures r.Ok? ==> forall e :: e in r.value <==> e in LoadAllEntries(file).value && MatchesFilter(e, f)
    ensures r.Ok? ==> r.value == FilterEntries(LoadAllEntries(file).value, f)
  {
    var entries :- LoadAllEntries(file);
    Ok(FilterEntries(entries, f))
  }

  // ---------------------------------------------------------------------
  // Random pick

  /** `get_random_entry`: none for an empty collection, otherwise any stored
      entry (the choice is the random generator's). */
  method GetRandomEntry(file: FileState) returns (r: Result<Option<MemoryEntry>, StoreError>)
    ensures r.Err? <==> LoadAllEntries(file).Err?
    ensures r.Ok? ==> (r.value.None? <==> LoadAllEntries(file).value == [])
    ensures r.Ok? && r.value.Some? ==> r.value.value in LoadAllEntries(file).value
  {
    var loaded := LoadAllEntries(file);
    if loaded.Err? {
      return Err(loaded.error);
    }
    var entries := loaded.value;
    if entries == [] {
      return Ok(None);
    }
    var i :| 0 <= i < |entries|;
    return Ok(Some(entries[i]));
  }
}

=== FILE: wrappers.dfy ===
/** Failure-compatible Option and Result types, shaped after Rust's `Option`
    and `Result`, so that `:-` can stand in for the `?` operator. */
module Wrappers {

  datatype Option<T> = None | Some(value: T) {

    predicate IsFailure() {
      None?
    }

    function PropagateFailure<U>(): Option<U>
      requires None?
    {
      None
    }

    function Extract(): T
      requires Some?
    {
      value
    }

    /** Rust's `ok_or`: turns a missing value into the given error. */
    function OkOr<E>(error: E): Result<T, E> {
      match this
      case Some(v) => Ok(v)
      case None => Err(error)
    }
  }

  datatype Result<T, E> = Ok(value: T) | Err(error: E) {

    predicate IsFailure() {
      Err?
    }

    function PropagateFailure<U>(): Result<U, E>
      requires Err?
    {
      Err(error)
    }

    function Extract(): T
      requires Ok?
    {
      value
    }

    /** Rust's `unwrap_or`: the value, or `default` on any error. */
    function UnwrapOr(default: T): T {
      match this
      case Ok(v) => v
      case Err(_) => default
    }

    /** Rust's `map_err`. */
    function MapErr<F>(wrap: E -> F): Result<T, F> {
      match this
      case Ok(v) => Ok(v)
      case Err(e) => Err(wrap(e))
    }
  }
}
